=== FILE: README.md ===
# SEDkit synthetic photometry: a Dafny model of `mag_table` and `Bandpass.wave_units`

`SEDkit/synphot.py` computes a table of synthetic magnitudes over a grid of
model atmospheres. `mag_table(spectra, bandpasses, models, jmag, save)` runs in these steps:

1. It builds the grid of (Teff, [Fe/H], log g) points. The default grid is the
   product of three `np.arange` ranges.
2. It resolves the bandpasses. The argument is either a list or tuple of
   (filter, instrument) pairs, or a directory whose file names are parsed into
   such pairs. Each pair becomes a bandpass object.
3. For each point it fetches a model spectrum and renormalises it to the
   J magnitude `jmag`. A point whose renormalisation raises is skipped. Any
   other point gets a one-row table: its `teff`, `feh` and `logg`, then one
   synthetic magnitude column per bandpass name.
4. It stacks the rows. If `os.path.exists(os.path.dirname(save))` holds and
   the path contains a '.', it writes them to a `.csv` file; otherwise it
   returns them.

The `Bandpass` class keeps a wavelength unit. Its `wave_units` setter checks
the new unit and then re-expresses the wavelength array and the effective
wavelength in it.

The model has one module per concern:

| file | module | models |
|---|---|---|
| `options.dfy` | `Options` | `Option`, `Result`, and `MapAll`, a list comprehension whose element step may raise |
| `text.dfy` | `Text` | Python's `str.split` with a one-character separator, `str.join` and `str.endswith` |
| `grid.dfy` | `Grid` | `np.arange`, `itertools.product` and the default grid |
| `sources.dfy` | `Sources` | the `bandpasses` argument: file-name parsing and the list/tuple guard |
| `rows.dfy` | `Rows` | the one-row astropy table and `table[name] = [value]` |
| `save_path.dfy` | `SavePath` | the `.csv` coercion of the save path |
| `pipeline.dfy` | `Pipeline` | the two loops of `mag_table` as methods, the function they are proved against, and the lemmas about it |
| `units.dfy` | `Units` | the `Bandpass` class: its unit, its wavelength array, its effective wavelength and the `wave_units` setter |

The routine's outside collaborators are parameters:

- `Photometry` holds `ps.Icat`, `renorm`, `synthetic_magnitude` and
  `Bandpass(filt, inst)`, each a function that returns `None` when the real
  call raises, and `bp.name`, a plain function from a bandpass to its name.
- `FileSystem` holds which non-empty paths exist and the `glob` listing of a
  directory. `Sources.Exists` is `os.path.exists`: the empty path never
  exists. `SavePath.Dirname` is `os.path.dirname` on POSIX paths.
- `MagTable` returns an `Outcome`, one of:
  - `Aborted`: the message is printed and `None` returned;
  - `Raised(failure)`: an exception escapes;
  - `Returned(table)`;
  - `Written(path, table)`.

The loops are imperative:

- `BuildRow` is the inner loop. It fills a table column by column.
- `BuildRows` is the outer loop. It appends to `tables` and skips a point with
  `continue`.

Each loop is proved equal to a prefix-recursive function: `FillRow` for the
inner loop, `Accumulate` for the outer one. `MagTable` is proved equal to
`MagTableSpec`. The lemmas state the routine's promises about those functions.

[Fe/H] and log g are integers in tenths of a dex, so the default ranges
`np.arange(-0.5, 1.0, 0.5)` and `np.arange(4.5, 5.5, 0.5)` become
`Arange(-5, 10, 5)` and `Arange(45, 55, 5)`.

Where the behaviour of the code differs from its documentation, the model
follows the code:

- `save=None`, the default, does not return the table. `os.path.dirname(None)`
  raises at line 194, so the outcome is `Raised(NoSavePath)`.
- When every grid point is skipped, `at.vstack([])` raises, because astropy
  refuses to stack an empty list. The outcome is `Raised(NothingToStack)`, not an empty table.
- Line 150 calls `Bandpass(filt, inst)` with two arguments, but the class's
  `__init__` (line 22) takes one name, so as written the call always raises
  `TypeError`. Any non-empty pair list therefore makes the routine raise at
  line 150 (`Raised(BandpassRaised)`), which `AsWrittenPairsRaise` states for
  a `make` that always returns `None`. The model keeps construction as the
  collaborator `make` so that the rest of the routine is stated too.
- `synthetic_magnitude` (line 183) is not defined in `synphot.py` and not
  imported, so as written it raises `NameError` whenever it is reached. It is
  reached only with at least one bandpass, which line 150 already rules out.
  In the model it is the collaborator `synth`; the program as written is the
  case where `synth` always returns `None` (`Raised(NoMagnitude(p))`).
- `Icat` and `synthetic_magnitude` are outside the `try`. Their failures
  escape (`NoSpectrum`, `NoMagnitude`). Only renormalisation failures are
  skipped.
- The `.csv` coercion cuts at the first '.' of the whole path, directory
  part included. So `"./mags.txt"` becomes `".csv"` (`CoerceCsvLeadingDot`).
- A save path with no directory part, such as `"mags.csv"`, has the
  directory name `""`, and `os.path.exists("")` is false. Such a table is
  returned, never written (`Finish`).
- The setter's first test accepts only instances of `PrefixUnit`, `Unit` and
  `CompositeUnit`. An irreducible base unit such as `q.m` is none of these,
  so it raises the first `TypeError` although it is a length. In the model it
  is a `NotAUnit` argument.

## Model

| member | source | states |
|---|---|---|
| Options.MapAll | SEDkit/synphot.py:146 | a comprehension succeeds exactly when every element step succeeds; it then has one result per element, in order |
| Text.Split | SEDkit/synphot.py:146 | `s.split(sep)` with empty pieces kept; characterised by `JoinSplit`, `SplitJoin`, `SplitConcat`, `SplitPiecesFree` and `SplitFirstPiece` |
| Text.JoinSplit | SEDkit/synphot.py:146 | joining the pieces of `s.split(sep)` with `sep` gives back `s` |
| Text.SplitJoin | SEDkit/synphot.py:146 | splitting a join of separator-free pieces gives back the pieces |
| Text.SplitNoSep | SEDkit/synphot.py:146 | a string without the separator splits into itself alone |
| Text.SplitConcat | SEDkit/synphot.py:146 | splitting `a + sep + b` gives the pieces of `a` followed by the pieces of `b` |
| Text.SplitPiecesFree | SEDkit/synphot.py:146 | no piece of a split contains the separator |
| Text.SplitFirstPiece | SEDkit/synphot.py:197 | the first piece is a separator-free prefix of the string followed by a separator or by the end: the text before the first separator, or the whole string when there is none |
| Text.SplitKeepsOut | SEDkit/synphot.py:146 | a character absent from a string is absent from every piece of it |
| Grid.Arange | SEDkit/synphot.py:135-137 | `np.arange(start, stop, step)` starts at `start`, goes up by `step`, stays within `[start, stop)`, and one more step would reach `stop`, so no value below `stop` is missed |
| Grid.Layer | SEDkit/synphot.py:139 | one Teff block of the product: one point per ([Fe/H], log g) pair, exactly the points with that Teff |
| Grid.Product | SEDkit/synphot.py:139 | `itertools.product` has as many points as the product of the three lengths, exactly the triples drawn from the three ranges |
| Grid.ArangeIncreasing | SEDkit/synphot.py:135-137 | an `arange` is strictly increasing |
| Grid.ArangeGrows | SEDkit/synphot.py:135-137 | a later element of an `arange` is larger than an earlier one, by induction on the distance between them |
| Grid.ProductInOrder | SEDkit/synphot.py:139 | the product of increasing ranges is in lexicographic order: Teff outermost, log g innermost |
| Grid.OrderedIsDistinct | SEDkit/synphot.py:139 | a sequence in that order holds each triple once |
| Grid.DefaultRanges | SEDkit/synphot.py:135-137 | the default ranges are Teff 2000..2500 step 50, [Fe/H] -0.5, 0, 0.5 and log g 4.5, 5.0 |
| Grid.DefaultGrid | SEDkit/synphot.py:134-139 | the grid used when `spectra` is None; characterised by `DefaultGridShape` and `DefaultRanges` |
| Grid.DefaultGridShape | SEDkit/synphot.py:134-139 | the default grid has 66 triples, exactly those drawn from the three ranges, each once, in product order |
| Sources.ParseFileName | SEDkit/synphot.py:146 | a file name parses exactly when it has at least four '.'-segments; the filter is '.'-free, and the instrument is free of '.' and '_'; which segments they are is stated by `ParseConventionalName` and `ParseSegmentWithoutUnderscore` |
| Sources.ParseListing | SEDkit/synphot.py:145-146 | the listing parses exactly when every name does; it then gives one pair per file, in listing order |
| Sources.ParseConventionalName | SEDkit/synphot.py:146 | `<...>.<facility>_<instrument>.<filter>.<x>.<y>` yields (filter, instrument) |
| Sources.ParseSegmentWithoutUnderscore | SEDkit/synphot.py:146 | when the fourth-from-last segment has no '_', the whole segment, directory part included, is the instrument: `"filters/WISE.W1.x.y"` yields `("W1", "filters/WISE")` |
| Sources.Resolve | SEDkit/synphot.py:142-154 | the two `isinstance` tests; the routine-level rule is `Pipeline.MagTableAborts` |
| Rows.Lookup | SEDkit/synphot.py:186 | `table[name]` finds a cell exactly when a column has that name |
| Rows.LookupFindsFirst | SEDkit/synphot.py:186 | a found cell is that of the first column with that name |
| Rows.SetColumn | SEDkit/synphot.py:186 | `table[name] = [v]`; characterised by `SetColumnSpec` |
| Rows.SetColumnSpec | SEDkit/synphot.py:186 | after `table[name] = [v]` the column holds v and every other column reads as before; the names are unchanged if `name` was present, otherwise `name` is appended |
| Rows.SetColumnHolds | SEDkit/synphot.py:186 | after `table[name] = [v]` the column `name` holds v |
| Rows.SetColumnOthers | SEDkit/synphot.py:186 | after `table[name] = [v]` every other column reads as before |
| Rows.SetColumnNames | SEDkit/synphot.py:186 | the column names are unchanged when `name` was present, otherwise `name` is appended at the end |
| Rows.SetColumnKeepsDistinct | SEDkit/synphot.py:186 | column names stay distinct |
| Rows.BaseRow | SEDkit/synphot.py:177 | the `teff`/`feh`/`logg` table; characterised by `BaseRowHoldsPoint` |
| Rows.BaseRowHoldsPoint | SEDkit/synphot.py:177 | the new table's columns are `teff`, `feh`, `logg`, holding the point |
| SavePath.CoerceCsv | SEDkit/synphot.py:196-197 | the result ends in `.csv`; a path already ending in `.csv` is unchanged; otherwise the stem is the text before the first '.' |
| SavePath.CoerceCsvIdempotent | SEDkit/synphot.py:196-197 | coercing twice is coercing once |
| SavePath.CoerceCsvAtFirstDot | SEDkit/synphot.py:196-197 | with the first '.' at index i, the result is `save[..i] + ".csv"` |
| SavePath.CoerceCsvLeadingDot | SEDkit/synphot.py:196-197 | `"./mags.txt"` becomes `".csv"` |
| SavePath.Head | SEDkit/synphot.py:194 | the first step of `os.path.dirname`: a prefix of the path that is empty exactly when the path has no '/', and otherwise ends at its last '/' |
| SavePath.StripSlashes | SEDkit/synphot.py:194 | `rstrip('/')`: a prefix not ending in '/' after which only '/' follows |
| SavePath.Dirname | SEDkit/synphot.py:194 | `os.path.dirname(save)` is a prefix of the path, empty exactly when the path has no '/' |
| SavePath.DirnameJoin | SEDkit/synphot.py:194 | the directory name of `dir + "/" + file` is `dir` |
| Pipeline.Construct | SEDkit/synphot.py:149-150 | the bandpasses are built exactly when every pair builds; one bandpass per pair, in order |
| Pipeline.FillRow | SEDkit/synphot.py:177-186 | the inner loop as a function; characterised by `FillRowSucceeds`, `FillRowNames`, `FillRowLastWins` and `FillRowKeepsPoint` |
| Pipeline.FillRowFailureSticks | SEDkit/synphot.py:180-186 | once a magnitude has raised, the row is never completed |
| Pipeline.FillRowSucceeds | SEDkit/synphot.py:180-186 | a row is completed exactly when every bandpass yields a magnitude |
| Pipeline.FillRowNames | SEDkit/synphot.py:177-186 | a completed row's columns are `teff`, `feh`, `logg` first, then exactly the bandpass names, all distinct |
| Pipeline.FillRowLastWins | SEDkit/synphot.py:180-186 | each bandpass name holds the magnitude of the last bandpass with that name |
| Pipeline.FillRowKeepsPoint | SEDkit/synphot.py:177-186 | a column no bandpass is named after keeps the point's value: the row carries its own triple |
| Pipeline.Survivors | SEDkit/synphot.py:162-174 | the points that renormalise: no more than the grid, exactly the grid points that survive |
| Pipeline.Accumulate | SEDkit/synphot.py:157-188 | the outer loop as a function; characterised by `AccumulateRows` |
| Pipeline.AccumulateFailureSticks | SEDkit/synphot.py:162-188 | once a prefix of the loop has raised, the loop's result stays that exception |
| Pipeline.AccumulateRows | SEDkit/synphot.py:157-188 | the loop completes exactly when no point raises; its rows are then the surviving points in grid order, each built from its own renormalised spectrum |
| Pipeline.Finish | SEDkit/synphot.py:191-203 | no rows: stacking raises; no save path: `dirname(None)` raises; otherwise exactly one of writing and returning, with the stacked rows, writing exactly when `os.path.exists(os.path.dirname(save))` holds and the path has a '.', to the path coerced to `.csv`; a path without '/' is never written |
| Pipeline.GridOf | SEDkit/synphot.py:134-139 | `spectra`, or the default grid when it is None; the default is characterised by `Grid.DefaultGridShape` |
| Pipeline.MagTableSpec | SEDkit/synphot.py:113-203 | the whole routine as a function; characterised by `MagTableAborts`, `MagTableBadFileName`, `MagTableBandpassRaises`, `MagTableYieldsExactly`, `MagTableTable` and `AllSkippedRaises` |
| Pipeline.MagTableAborts | SEDkit/synphot.py:149-154 | the routine prints and returns None exactly when the argument is neither a list/tuple nor an existing path, whatever the grid and collaborators |
| Pipeline.ResolvedNeverAborts | SEDkit/synphot.py:149-203 | past the list/tuple guard the routine raises, returns or writes, and never prints-and-returns |
| Pipeline.MagTableYields | SEDkit/synphot.py:157-203 | once the bandpasses are built, a table is returned or written exactly when no point raises, some point survives and a save path is given |
| Pipeline.MagTableTable | SEDkit/synphot.py:188-203 | a yielded table has one row per surviving point, in grid order; it is written, to the coerced `.csv` path, exactly when `os.path.exists(os.path.dirname(save))` holds and the path has a '.', and returned otherwise |
| Pipeline.MagTableLaterRaises | SEDkit/synphot.py:157-203 | once the bandpasses are built, neither the `IndexError` nor a `Bandpass` failure can escape |
| Pipeline.MagTableBadFileName | SEDkit/synphot.py:142-146 | for an existing directory, the routine raises the comprehension's `IndexError` exactly when some file name has fewer than four '.'-segments |
| Pipeline.MagTableBandpassRaises | SEDkit/synphot.py:149-150 | once the argument resolves to pairs, the routine raises from `Bandpass(filt, inst)` exactly when some pair is rejected |
| Pipeline.AsWrittenPairsRaise | SEDkit/synphot.py:149-150 | with a `Bandpass` call that always raises, as the one-argument `__init__` makes it, any non-empty list of pairs makes the routine raise at line 150 |
| Pipeline.AccumulateRaisesInLoop | SEDkit/synphot.py:161-189 | the loop raises only from `ps.Icat` or `synthetic_magnitude` |
| Pipeline.MagTableYieldsExactly | SEDkit/synphot.py:113-203 | over all arguments, a table is returned or written exactly when the argument resolves to pairs, every pair makes a `Bandpass`, no point raises, some point survives and a save path is given |
| Pipeline.AllSkippedRaises | SEDkit/synphot.py:168-174 | when every point is fetched but none renormalises, stacking raises |
| Pipeline.BuildRow | SEDkit/synphot.py:177-186 | the inner loop computes `FillRow` |
| Pipeline.BuildRows | SEDkit/synphot.py:157-188 | the outer loop computes `Accumulate` |
| Pipeline.MagTable | SEDkit/synphot.py:113-203 | the routine computes `MagTableSpec` |
| Units.To | SEDkit/synphot.py:84 | `eff.to(unit)` gives a quantity in the new unit for the same length |
| Units.ConvertWave | SEDkit/synphot.py:81 | the converted array has the same length and each element stands for the same length |
| Units.CheckWaveUnits | SEDkit/synphot.py:70-78 | an argument passes exactly when it passes the `isinstance` test of line 71 (`AUnit`) and converts to micrometres; an irreducible unit such as `q.m` fails the first test |
| Units.ToRoundTrip | SEDkit/synphot.py:84 | converting to another length unit and back restores the quantity |
| Units.ConvertWaveRoundTrip | SEDkit/synphot.py:81 | converting the wavelength array to another length unit and back restores it |
| Units.Bandpass.constructor | SEDkit/synphot.py:31-41 | a new bandpass is in angstrom: the registry wavelengths (micrometres) times 10000, and the pivot wavelength in angstrom |
| Units.Bandpass.SetWaveUnits | SEDkit/synphot.py:61-87 | an argument failing the `isinstance` test of line 71 (a non-unit, or an irreducible unit such as `q.m`) or a non-length unit raises and changes nothing; otherwise the unit, the wavelength array and the effective wavelength are all in the new unit |
| Units.UnitsRoundTrip | SEDkit/synphot.py:61-87 | setting a length unit and then the original unit restores the wavelengths and the effective wavelength |

The `wave_units` getter (lines 56-59) is the field `waveUnits` of
`Units.Bandpass`. After `SetWaveUnits` succeeds it holds the new unit.

## Left out

- Units.Bandpass.SetWaveUnits: `self.convert(str(wave_units))` is modelled as an
  exact rescaling that always succeeds. A unit whose string form pysynphot
  rejects is not modelled.
- Units.Bandpass.constructor: `svo.Filter(name)`, `filt.rsr` and `pivot()`
  are parameters. The wavelength rescale `wave *= 10000` is exact. The stored
  `svo` filter object is not a field.
- The numerics are foreign calls returning `Option`: `ps.Icat`, `renorm`, the
  J bandpass `ps.ObsBandpass('j')` (folded into `renorm`), and
  `synthetic_magnitude`, which is not defined in `synphot.py`. A magnitude is
  an exact real. Floating-point rounding of magnitudes and of `np.arange` is
  not modelled.
- Wavelengths and unit sizes are exact reals. Floating-point conversion error
  is not modelled.
- `mag2flux` (lines 90-111) is floating-point flux arithmetic, so it is left out.
- `Bandpass.plot` and `color_color_plot` are plotting, so they are left out.
- The `print` messages and the `warnings` filter are left out. The message of
  the stop path is the `Aborted` outcome.
- File-system calls are inputs: which non-empty paths exist, and `glob.glob`
  (its listing order included).
- SavePath.Dirname: models `posixpath.dirname` only; Windows drive letters and
  '\\' separators are not modelled.
- `Table.write` becomes the `Written` outcome. Nothing is written, and a
  write that raises (line 199) is not modelled: `Written` assumes it succeeds.
- `ps.ObsBandpass('j')` (line 131) runs before the list/tuple guard. If it
  raised, the routine would raise instead of printing and returning. The
  model assumes it succeeds and folds the J bandpass into `renorm`.
- The default `bandpasses=FILTERS` (the svo filter list) is whatever the
  caller passes as `Listed` or `Unsupported`.
- A list whose elements are not pairs, which would fail to unpack, is not
  modelled: `Listed` holds pairs.
- A `spectra` element that is not a triple is not modelled either.
- The table rows are columns of names and cells. astropy column types,
  units and formatting are not modelled.

=== FILE: grid.dfy ===
/** The default parameter grid of `mag_table`: the Cartesian product of three
    `np.arange` ranges, Teff outermost and log g innermost. Teff is in kelvin;
    [Fe/H] and log g are in tenths of dex, so the float ranges
    `arange(-0.5, 1.0, 0.5)` and `arange(4.5, 5.5, 0.5)` become exact integer
    ranges. */
module Grid {

  /** One grid point (SpectralParams): Teff in K, [Fe/H] and log g in tenths. */
  datatype Params = Params(teff: int, feh: int, logg: int)

  /** `np.arange(start, stop, step)` for a positive step: the values from
      `start` upward in steps of `step` that lie below `stop`, and no more. */
  function Arange(start: int, stop: int, step: int): (r: seq<int>)
    requires step > 0
    ensures |r| > 0 ==> r[0] == start
    ensures forall i :: 0 < i < |r| ==> r[i] == r[i - 1] + step
    ensures forall i :: 0 <= i < |r| ==> start <= r[i] < stop
    ensures start + |r| * step >= stop
  {
    var count := if start < stop then (stop - start + step - 1) / step else 0;
    var r := seq(count, i requires 0 <= i < count => start + i * step);
    assert forall i :: 0 <= i < count ==> start <= r[i] < stop by {
      forall i | 0 <= i < count ensures start <= r[i] < stop {
        ArangeInRange(start, stop, step, i);
      }
    }
    assert forall i :: 0 < i < count ==> r[i] == r[i - 1] + step by {
      forall i | 0 < i < count ensures r[i] == r[i - 1] + step {
        assert i * step == (i - 1) * step + step;
      }
    }
    ArangeCovers(start, stop, step);
    r
  }

  /** Every value `np.arange` produces lies in `[start, stop)`. */
  lemma ArangeInRange(start: int, stop: int, step: int, i: int)
    requires step > 0 && start < stop && 0 <= i < (stop - start + step - 1) / step
    ensures start <= start + i * step < stop
  {
    var count := (stop - start + step - 1) / step;
    ArangeCount(stop - start, step);
    MulMonotone(0, i, step);
    MulMonotone(i, count - 1, step);
    assert (count - 1) * step == count * step - step;
  }

  /** One more step would reach `stop`. */
  lemma ArangeCovers(start: int, stop: int, step: int)
    requires step > 0
    ensures var count := if start < stop then (stop - start + step - 1) / step else 0;
      start + count * step >= stop
  {
    if start < stop {
      ArangeCount(stop - start, step);
    }
  }

  /** The number of steps `np.arange` takes over a span `n` covers it, and
      one step fewer does not. */
  lemma ArangeCount(n: int, step: int)
    requires n > 0 && step > 0
    ensures n <= (n + step - 1) / step * step <= n + step - 1
  {
    var m := n + step - 1;
    assert m == m / step * step + m % step;
  }

  lemma {:induction false} MulMonotone(i: int, j: int, k: int)
    requires 0 <= i <= j && k >= 0
    ensures i * k <= j * k
    decreases j - i
  {
    if i < j {
      MulMonotone(i, j - 1, k);
      assert j * k == (j - 1) * k + k;
    }
  }

  /** The inner two loops of `itertools.product` for a fixed Teff. */
  function Layer(teff: int, fehs: seq<int>, loggs: seq<int>): (r: seq<Params>)
    ensures |r| == |fehs| * |loggs|
    ensures forall p :: p in r <==> p.teff == teff && p.feh in fehs && p.logg in loggs
  {
    if fehs == [] then []
    else
      var row := seq(|loggs|, k requires 0 <= k < |loggs| => Params(teff, fehs[0], loggs[k]));
      assert forall p: Params :: p in row <==> p.teff == teff && p.feh == fehs[0] && p.logg in loggs by {
        forall p: Params | p.teff == teff && p.feh == fehs[0] && p.logg in loggs ensures p in row {
          var k :| 0 <= k < |loggs| && loggs[k] == p.logg;
          assert row[k] == p;
        }
      }
      row + Layer(teff, fehs[1..], loggs)
  }

  /** `list(itertools.product(teffs, fehs, loggs))`. */
  function Product(teffs: seq<int>, fehs: seq<int>, loggs: seq<int>): (r: seq<Params>)
    ensures |r| == |teffs| * |fehs| * |loggs|
    ensures forall p :: p in r <==> p.teff in teffs && p.feh in fehs && p.logg in loggs
  {
    if teffs == [] then []
    else Layer(teffs[0], fehs, loggs) + Product(teffs[1..], fehs, loggs)
  }

  function TeffRange(): seq<int> { Arange(2000, 2550, 50) }
  function FehRange(): seq<int> { Arange(-5, 10, 5) }
  function LoggRange(): seq<int> { Arange(45, 55, 5) }

  /** The grid used when no spectra are given. */
  function DefaultGrid(): seq<Params> {
    Product(TeffRange(), FehRange(), LoggRange())
  }

  predicate Increasing(s: seq<int>) {
    forall i, j :: 0 <= i < j < |s| ==> s[i] < s[j]
  }

  /** Lexicographic order on (Teff, [Fe/H], log g): the enumeration order of a
      product whose outermost factor is Teff. */
  predicate Before(p: Params, q: Params) {
    p.teff < q.teff
    || (p.teff == q.teff && (p.feh < q.feh || (p.feh == q.feh && p.logg < q.logg)))
  }

  predicate InProductOrder(r: seq<Params>) {
    forall i, j :: 0 <= i < j < |r| ==> Before(r[i], r[j])
  }

  /** `np.arange` with a positive step is strictly increasing. */
  lemma ArangeIncreasing(start: int, stop: int, step: int)
    requires step > 0
    ensures Increasing(Arange(start, stop, step))
  {
    var r := Arange(start, stop, step);
    forall i, j | 0 <= i < j < |r| ensures r[i] < r[j] {
      ArangeGrows(start, stop, step, i, j);
    }
  }

  /** Each step adds `step`, so a later element is larger: by induction on
      the distance, from the successor property of `Arange`. */
  lemma {:induction false} ArangeGrows(start: int, stop: int, step: int, i: nat, j: nat)
    requires step > 0
    requires i < j < |Arange(start, stop, step)|
    ensures Arange(start, stop, step)[i] < Arange(start, stop, step)[j]
    decreases j - i
  {
    if i + 1 < j {
      ArangeGrows(start, stop, step, i, j - 1);
    }
  }

  lemma {:induction false} ConcatInOrder(a: seq<Params>, b: seq<Params>)
    requires InProductOrder(a) && InProductOrder(b)
    requires forall x, y :: x in a && y in b ==> Before(x, y)
    ensures InProductOrder(a + b)
  {
    var r := a + b;
    forall i, j | 0 <= i < j < |r| ensures Before(r[i], r[j]) {
      if j < |a| {
        assert r[i] == a[i] && r[j] == a[j];
      } else if i >= |a| {
        assert r[i] == b[i - |a|] && r[j] == b[j - |a|];
      } else {
        assert r[i] in a && r[j] in b;
      }
    }
  }

  lemma {:induction false} LayerInOrder(teff: int, fehs: seq<int>, loggs: seq<int>)
    requires Increasing(fehs) && Increasing(loggs)
    ensures InProductOrder(Layer(teff, fehs, loggs))
  {
    if fehs != [] {
      var row := seq(|loggs|, k requires 0 <= k < |loggs| => Params(teff, fehs[0], loggs[k]));
      var rest := Layer(teff, fehs[1..], loggs);
      LayerInOrder(teff, fehs[1..], loggs);
      assert InProductOrder(row);
      forall x, y | x in row && y in rest ensures Before(x, y) {
        assert y.feh in fehs[1..];
      }
      ConcatInOrder(row, rest);
    }
  }

  lemma {:induction false} ProductInOrder(teffs: seq<int>, fehs: seq<int>, loggs: seq<int>)
    requires Increasing(teffs) && Increasing(fehs) && Increasing(loggs)
    ensures InProductOrder(Product(teffs, fehs, loggs))
  {
    if teffs != [] {
      var layer := Layer(teffs[0], fehs, loggs);
      var rest := Product(teffs[1..], fehs, loggs);
      LayerInOrder(teffs[0], fehs, loggs);
      ProductInOrder(teffs[1..], fehs, loggs);
      forall x, y | x in layer && y in rest ensures Before(x, y) {
        assert y.teff in teffs[1..];
      }
      ConcatInOrder(layer, rest);
    }
  }

  /** A sequence in product order holds each point once. */
  lemma OrderedIsDistinct(r: seq<Params>)
    requires InProductOrder(r)
    ensures forall i, j :: 0 <= i < j < |r| ==> r[i] != r[j]
  {
  }

  /** The three default ranges, evaluated. */
  lemma DefaultRanges()
    ensures TeffRange() == [2000, 2050, 2100, 2150, 2200, 2250, 2300, 2350, 2400, 2450, 2500]
    ensures FehRange() == [-5, 0, 5]
    ensures LoggRange() == [45, 50]
  {
  }

  /** The default grid: 11 x 3 x 2 = 66 points, exactly the triples drawn
      from the three ranges (see `DefaultRanges`), each once, Teff outermost
      and log g innermost. */
  lemma DefaultGridShape()
    ensures |DefaultGrid()| == 66
    ensures forall p :: p in DefaultGrid() <==>
      p.teff in TeffRange() && p.feh in FehRange() && p.logg in LoggRange()
    ensures InProductOrder(DefaultGrid())
    ensures forall i, j :: 0 <= i < j < |DefaultGrid()| ==> DefaultGrid()[i] != DefaultGrid()[j]
  {
    DefaultRanges();
    ArangeIncreasing(2000, 2550, 50);
    ArangeIncreasing(-5, 10, 5);
    ArangeIncreasing(45, 55, 5);
    ProductInOrder(TeffRange(), FehRange(), LoggRange());
    OrderedIsDistinct(DefaultGrid());
  }
}

=== FILE: options.dfy ===
/** Failure-carrying wrappers used across the model. A foreign call that may
    raise is modelled as a function returning `Option`: `None` stands for the
    exception. */
module Options {

  datatype Option<+T> = None | Some(value: T)

  datatype Result<+T, +E> = Ok(value: T) | Err(error: E)

  /** All-or-nothing map, the shape of a Python list comprehension whose
      element expression may raise: one failing element fails the whole list. */
  function MapAll<X, Y(==)>(xs: seq<X>, f: X -> Option<Y>): (r: Option<seq<Y>>)
    ensures r.Some? <==> forall i :: 0 <= i < |xs| ==> f(xs[i]).Some?
    ensures r.Some? ==> |r.value| == |xs|
    ensures r.Some? ==> forall i :: 0 <= i < |xs| ==> f(xs[i]) == Some(r.value[i])
  {
    if xs == [] then Some([])
    else
      match f(xs[0])
      case None => None
      case Some(y) =>
        match MapAll(xs[1..], f)
        case None => None
        case Some(ys) => Some([y] + ys)
  }
}

=== FILE: pipeline.dfy ===
/** `mag_table`: for every grid point fetch and renormalise a model spectrum,
    skip the point when renormalisation fails, otherwise build one row with the
    point and one synthetic magnitude per bandpass; stack the rows in grid
    order; then either write them to a `.csv` file or return them. */
module Pipeline {
  import opened Options
  import opened Text
  import opened Grid
  import opened Sources
  import opened Rows
  import opened SavePath

  /** The foreign calls of `mag_table`, each `None` when the call raises:
      `ps.Icat(models, teff, feh, logg)`, `spectrum.renorm(jmag, 'vegamag',
      jband)`, `synthetic_magnitude(spectrum, bp)`, `Bandpass(filt, inst)` and
      `bp.name`. */
  datatype Photometry<!S, !B> = Photometry(
    icat: (string, Params) -> Option<S>,
    renorm: (S, real) -> Option<S>,
    synth: (S, B) -> Option<real>,
    make: (string, string) -> Option<B>,
    name: B -> string)

  /** The exceptions that escape `mag_table`. */
  datatype Failure =
    | MalformedFileName   // IndexError in the directory-listing comprehension
    | BandpassRaised      // `Bandpass(filt, inst)` raised; as written it always does
    | NoSpectrum(p: Params)   // `ps.Icat` raised (it is outside the try)
    | NoMagnitude(p: Params)  // `synthetic_magnitude` raised; it is undefined, so it always does
    | NothingToStack      // `at.vstack([])` raised: every point was skipped
    | NoSavePath          // `os.path.dirname(None)` raised

  /** What one call does: prints a message and returns None, raises, returns
      the stacked table, or writes it to a file and returns None. */
  datatype Outcome =
    | Aborted
    | Raised(failure: Failure)
    | Returned(table: seq<Row>)
    | Written(path: string, table: seq<Row>)

  /** `[Bandpass(filt, inst) for filt, inst in bandpasses]`. */
  function Construct<S, B(==)>(ph: Photometry<S, B>, pairs: seq<(string, string)>): (r: Option<seq<B>>)
    ensures r.Some? <==> forall i :: 0 <= i < |pairs| ==> ph.make(pairs[i].0, pairs[i].1).Some?
    ensures r.Some? ==> |r.value| == |pairs|
    ensures r.Some? ==> forall i :: 0 <= i < |pairs| ==> ph.make(pairs[i].0, pairs[i].1) == Some(r.value[i])
  {
    MapAll(pairs, (pair: (string, string)) => ph.make(pair.0, pair.1))
  }

  function BandNames<S, B>(ph: Photometry<S, B>, bps: seq<B>): seq<string> {
    seq(|bps|, i requires 0 <= i < |bps| => ph.name(bps[i]))
  }

  lemma BandNamesAppend<S, B>(ph: Photometry<S, B>, bps: seq<B>)
    requires bps != []
    ensures BandNames(ph, bps) == BandNames(ph, bps[..|bps| - 1]) + [ph.name(Last(bps))]
  {
  }

  /** Bandpass `j` is the last one carrying its name: its column value is the
      one that stays. */
  predicate LastOfItsName<S, B>(ph: Photometry<S, B>, bps: seq<B>, j: int)
    requires 0 <= j < |bps|
  {
    forall k :: j < k < |bps| ==> ph.name(bps[k]) != ph.name(bps[j])
  }

  /** The inner loop: starting from the `teff`/`feh`/`logg` table, one column
      per bandpass, in bandpass order; `None` when a magnitude raises. */
  function FillRow<S, B>(ph: Photometry<S, B>, spectrum: S, bps: seq<B>, p: Params): Option<Row>
    decreases |bps|
  {
    if bps == [] then Some(BaseRow(p))
    else
      match FillRow(ph, spectrum, bps[..|bps| - 1], p)
      case None => None
      case Some(row) =>
        match ph.synth(spectrum, Last(bps))
        case None => None
        case Some(mag) => Some(SetColumn(row, ph.name(Last(bps)), Mag(mag)))
  }

  /** The grid point survives the try block: its spectrum is fetched and
      renormalised. */
  predicate Survives<S, B>(ph: Photometry<S, B>, models: string, jmag: real, p: Params) {
    ph.icat(models, p).Some? && ph.renorm(ph.icat(models, p).value, jmag).Some?
  }

  function Normalised<S, B>(ph: Photometry<S, B>, models: string, jmag: real, p: Params): S
    requires Survives(ph, models, jmag, p)
  {
    ph.renorm(ph.icat(models, p).value, jmag).value
  }

  /** The grid points that survive, in grid order. */
  function Survivors<S, B>(ph: Photometry<S, B>, models: string, jmag: real, grid: seq<Params>): (kept: seq<Params>)
    ensures |kept| <= |grid|
    ensures forall p :: p in kept <==> p in grid && Survives(ph, models, jmag, p)
  {
    if grid == [] then []
    else
      (if Survives(ph, models, jmag, grid[0]) then [grid[0]] else [])
        + Survivors(ph, models, jmag, grid[1..])
  }

  /** The outer loop: the list `tables` after the grid points of `grid`, or
      the exception that ended it. */
  function Accumulate<S, B>(ph: Photometry<S, B>, models: string, jmag: real, bps: seq<B>, grid: seq<Params>)
    : Result<seq<Row>, Failure>
    decreases |grid|
  {
    if grid == [] then Ok([])
    else
      match Accumulate(ph, models, jmag, bps, grid[..|grid| - 1])
      case Err(e) => Err(e)
      case Ok(rows) =>
        var p := Last(grid);
        match ph.icat(models, p)
        case None => Err(NoSpectrum(p))
        case Some(spectrum) =>
          match ph.renorm(spectrum, jmag)
          case None => Ok(rows)
          case Some(normalised) =>
            match FillRow(ph, normalised, bps, p)
            case None => Err(NoMagnitude(p))
            case Some(row) => Ok(rows + [row])
  }

  /** After the loop: stack the rows, then write or return them. Stacking no
      rows raises, and so does a missing save path; otherwise exactly one of
      writing and returning happens, with the stacked rows, and the table is
      written, to the path coerced to `.csv`, exactly when
      `os.path.exists(os.path.dirname(save))` holds and the path contains '.'.
      A bare file name such as "mags.csv" has the directory name "", which
      never exists, so its table is returned rather than written. */
  function Finish(rows: seq<Row>, save: Option<string>, fs: FileSystem): (outcome: Outcome)
    ensures !outcome.Aborted?
    ensures rows == [] ==> outcome == Raised(NothingToStack)
    ensures rows != [] && save.None? ==> outcome == Raised(NoSavePath)
    ensures rows != [] && save.Some? ==> (outcome.Written? || outcome.Returned?) && outcome.table == rows
    ensures outcome.Written? <==> rows != [] && save.Some? && Exists(fs, Dirname(save.value)) && HasDot(save.value)
    ensures outcome.Written? ==> outcome.path == CoerceCsv(save.value) && EndsWith(outcome.path, ".csv")
    ensures save.Some? && '/' !in save.value ==> !outcome.Written?
  {
    if rows == [] then Raised(NothingToStack)
    else
      match save
      case None => Raised(NoSavePath)
      case Some(path) =>
        if Exists(fs, Dirname(path)) && HasDot(path) then Written(CoerceCsv(path), rows)
        else Returned(rows)
  }

  /** `spectra`, or the default grid when it is None. */
  function GridOf(spectra: Option<seq<Params>>): seq<Params> {
    if spectra.None? then DefaultGrid() else spectra.value
  }

  /** The whole routine, as a function of its arguments and its collaborators. */
  function MagTableSpec<S, B(==)>(spectra: Option<seq<Params>>, bandpasses: BandpassSource,
                                  models: string, jmag: real, save: Option<string>,
                                  ph: Photometry<S, B>, fs: FileSystem): Outcome
  {
    var grid := GridOf(spectra);
    match Resolve(bandpasses, fs)
    case NotAList => Aborted
    case BadFileName => Raised(MalformedFileName)
    case Pairs(pairs) =>
      match Construct(ph, pairs)
      case None => Raised(BandpassRaised)
      case Some(bps) =>
        match Accumulate(ph, models, jmag, bps, grid)
        case Err(e) => Raised(e)
        case Ok(rows) => Finish(rows, save, fs)
  }

  /** Once the inner loop has failed, it stays failed. */
  lemma {:induction false} FillRowFailureSticks<S, B>(ph: Photometry<S, B>, spectrum: S, bps: seq<B>, p: Params, j: nat)
    requires j <= |bps| && FillRow(ph, spectrum, bps[..j], p).None?
    ensures FillRow(ph, spectrum, bps, p).None?
    decreases |bps| - j
  {
    if j < |bps| {
      assert bps[..j + 1][..j] == bps[..j];
      FillRowFailureSticks(ph, spectrum, bps, p, j + 1);
    } else {
      assert bps[..j] == bps;
    }
  }

  /** Once the outer loop has raised, the routine raises that exception. */
  lemma {:induction false} AccumulateFailureSticks<S, B>(ph: Photometry<S, B>, models: string, jmag: real,
                                                         bps: seq<B>, grid: seq<Params>, i: nat)
    requires i <= |grid| && Accumulate(ph, models, jmag, bps, grid[..i]).Err?
    ensures Accumulate(ph, models, jmag, bps, grid) == Accumulate(ph, models, jmag, bps, grid[..i])
    decreases |grid| - i
  {
    if i < |grid| {
      assert grid[..i + 1][..i] == grid[..i];
      AccumulateFailureSticks(ph, models, jmag, bps, grid, i + 1);
    } else {
      assert grid[..i] == grid;
    }
  }

  /** The inner loop completes exactly when every bandpass yields a magnitude. */
  lemma {:induction false} FillRowSucceeds<S, B>(ph: Photometry<S, B>, spectrum: S, bps: seq<B>, p: Params)
    ensures FillRow(ph, spectrum, bps, p).Some? <==>
      forall j :: 0 <= j < |bps| ==> ph.synth(spectrum, bps[j]).Some?
    decreases |bps|
  {
    if bps != [] {
      var init := bps[..|bps| - 1];
      FillRowSucceeds(ph, spectrum, init, p);
      FillRowSomeStep(ph, spectrum, bps, p);
      assert forall j :: 0 <= j < |init| ==> init[j] == bps[j];
      assert Last(bps) == bps[|bps| - 1];
    }
  }

  /** Whether one more step of the inner loop completes. */
  lemma FillRowSomeStep<S, B>(ph: Photometry<S, B>, spectrum: S, bps: seq<B>, p: Params)
    requires bps != []
    ensures FillRow(ph, spectrum, bps, p).Some? <==>
      FillRow(ph, spectrum, bps[..|bps| - 1], p).Some? && ph.synth(spectrum, Last(bps)).Some?
  {
  }

  /** One step of the inner loop: the last bandpass's column is set on the
      row built from the others. */
  lemma FillRowStep<S, B>(ph: Photometry<S, B>, spectrum: S, bps: seq<B>, p: Params)
    requires bps != [] && FillRow(ph, spectrum, bps, p).Some?
    ensures var init := bps[..|bps| - 1];
      && FillRow(ph, spectrum, init, p).Some?
      && ph.synth(spectrum, Last(bps)).Some?
      && FillRow(ph, spectrum, bps, p).value ==
           SetColumn(FillRow(ph, spectrum, init, p).value, ph.name(Last(bps)), Mag(ph.synth(spectrum, Last(bps)).value))
  {
  }

  /** A completed row holds `teff`, `feh` and `logg` first, then one column
      per distinct bandpass name, all names distinct. */
  lemma {:induction false} FillRowNames<S, B>(ph: Photometry<S, B>, spectrum: S, bps: seq<B>, p: Params)
    requires FillRow(ph, spectrum, bps, p).Some?
    ensures var row := FillRow(ph, spectrum, bps, p).value;
      && |row| >= 3 && Names(row)[..3] == ["teff", "feh", "logg"]
      && (forall n :: n in Names(row) <==> n in ["teff", "feh", "logg"] || n in BandNames(ph, bps))
      && Distinct(Names(row))
    decreases |bps|
  {
    var row := FillRow(ph, spectrum, bps, p).value;
    if bps == [] {
      assert Names(row) == ["teff", "feh", "logg"];
    } else {
      var init := bps[..|bps| - 1];
      var last := Last(bps);
      FillRowStep(ph, spectrum, bps, p);
      FillRowNames(ph, spectrum, init, p);
      var prev := FillRow(ph, spectrum, init, p).value;
      var mag := ph.synth(spectrum, last).value;
      SetColumnSpec(prev, ph.name(last), Mag(mag));
      assert Names(row)[..3] == ["teff", "feh", "logg"] by {
        assert Names(row)[..3] == Names(prev)[..3];
      }
      assert forall n :: n in Names(row) <==> n in ["teff", "feh", "logg"] || n in BandNames(ph, bps) by {
        BandNamesAppend(ph, bps);
      }
      assert Distinct(Names(row)) by {
        SetColumnKeepsDistinct(prev, ph.name(last), Mag(mag));
      }
    }
  }

  /** In a completed row each bandpass name holds the magnitude of the LAST
      bandpass carrying that name: a later duplicate overwrites the column. */
  lemma {:induction false} FillRowLastWins<S, B>(ph: Photometry<S, B>, spectrum: S, bps: seq<B>, p: Params)
    requires FillRow(ph, spectrum, bps, p).Some?
    ensures forall j :: 0 <= j < |bps| && LastOfItsName(ph, bps, j) ==>
      ph.synth(spectrum, bps[j]).Some?
      && Lookup(FillRow(ph, spectrum, bps, p).value, ph.name(bps[j])) == Some(Mag(ph.synth(spectrum, bps[j]).value))
    decreases |bps|
  {
    if bps != [] {
      var row := FillRow(ph, spectrum, bps, p).value;
      var init := bps[..|bps| - 1];
      var last := Last(bps);
      FillRowStep(ph, spectrum, bps, p);
      FillRowLastWins(ph, spectrum, init, p);
      var prev := FillRow(ph, spectrum, init, p).value;
      SetColumnSpec(prev, ph.name(last), Mag(ph.synth(spectrum, last).value));
      forall j | 0 <= j < |bps| && LastOfItsName(ph, bps, j)
        ensures ph.synth(spectrum, bps[j]).Some?
        ensures Lookup(row, ph.name(bps[j])) == Some(Mag(ph.synth(spectrum, bps[j]).value))
      {
        if j < |init| {
          var name := ph.name(bps[j]);
          assert init[j] == bps[j];
          assert name != ph.name(last);
          assert LastOfItsName(ph, init, j);
          assert Lookup(prev, name) == Some(Mag(ph.synth(spectrum, init[j]).value));
          assert Lookup(row, name) == Lookup(prev, name);
        }
      }
    }
  }

  /** A column no bandpass is named after keeps its value from the
      `teff`/`feh`/`logg` table: the row carries its own grid point. */
  lemma {:induction false} FillRowKeepsPoint<S, B>(ph: Photometry<S, B>, spectrum: S, bps: seq<B>, p: Params)
    requires FillRow(ph, spectrum, bps, p).Some?
    ensures forall n :: n !in BandNames(ph, bps) ==>
      Lookup(FillRow(ph, spectrum, bps, p).value, n) == Lookup(BaseRow(p), n)
    ensures "teff" !in BandNames(ph, bps) ==> Lookup(FillRow(ph, spectrum, bps, p).value, "teff") == Some(Param(p.teff))
    ensures "feh" !in BandNames(ph, bps) ==> Lookup(FillRow(ph, spectrum, bps, p).value, "feh") == Some(Param(p.feh))
    ensures "logg" !in BandNames(ph, bps) ==> Lookup(FillRow(ph, spectrum, bps, p).value, "logg") == Some(Param(p.logg))
    decreases |bps|
  {
    BaseRowHoldsPoint(p);
    if bps != [] {
      var init := bps[..|bps| - 1];
      FillRowStep(ph, spectrum, bps, p);
      FillRowKeepsPoint(ph, spectrum, init, p);
      BandNamesAppend(ph, bps);
      SetColumnSpec(FillRow(ph, spectrum, init, p).value, ph.name(Last(bps)), Mag(ph.synth(spectrum, Last(bps)).value));
    }
  }

  /** The grid point raises nothing: its spectrum is fetched and, when it
      renormalises, every magnitude is computed. */
  predicate RaisesNothing<S, B>(ph: Photometry<S, B>, models: string, jmag: real, bps: seq<B>, p: Params) {
    ph.icat(models, p).Some?
    && (Survives(ph, models, jmag, p) ==> FillRow(ph, Normalised(ph, models, jmag, p), bps, p).Some?)
  }

  lemma {:induction false} SurvivorsAppend<S, B>(ph: Photometry<S, B>, models: string, jmag: real, grid: seq<Params>, p: Params)
    ensures Survivors(ph, models, jmag, grid + [p]) ==
      Survivors(ph, models, jmag, grid) + (if Survives(ph, models, jmag, p) then [p] else [])
  {
    if grid != [] {
      assert (grid + [p])[1..] == grid[1..] + [p];
      SurvivorsAppend(ph, models, jmag, grid[1..], p);
    } else {
      assert [] + [p] == [p];
    }
  }

  /** The rows are exactly the points that survive renormalisation, in grid
      order, each row built from its own point and its renormalised spectrum;
      the loop completes exactly when no point raises. */
  lemma {:induction false} AccumulateRows<S, B>(ph: Photometry<S, B>, models: string, jmag: real, bps: seq<B>, grid: seq<Params>)
    ensures Accumulate(ph, models, jmag, bps, grid).Ok? <==>
      forall i :: 0 <= i < |grid| ==> RaisesNothing(ph, models, jmag, bps, grid[i])
    ensures Accumulate(ph, models, jmag, bps, grid).Ok? ==>
      var rows := Accumulate(ph, models, jmag, bps, grid).value;
      var kept := Survivors(ph, models, jmag, grid);
      && |rows| == |kept| <= |grid|
      && forall k :: 0 <= k < |kept| ==>
           FillRow(ph, Normalised(ph, models, jmag, kept[k]), bps, kept[k]) == Some(rows[k])
    decreases |grid|
  {
    if grid != [] {
      var init := grid[..|grid| - 1];
      var p := Last(grid);
      AccumulateRows(ph, models, jmag, bps, init);
      assert init + [p] == grid;
      SurvivorsAppend(ph, models, jmag, init, p);
      assert forall i :: 0 <= i < |init| ==> init[i] == grid[i];
    }
  }

  /** The routine prints its message and returns None exactly when the
      bandpass argument is neither a list/tuple nor a path that exists; it does
      so before a spectrum is fetched, whatever the grid and collaborators. */
  lemma MagTableAborts<S, B>(spectra: Option<seq<Params>>, bandpasses: BandpassSource,
                                 models: string, jmag: real, save: Option<string>,
                                 ph: Photometry<S, B>, fs: FileSystem)
    ensures MagTableSpec(spectra, bandpasses, models, jmag, save, ph, fs).Aborted? <==>
      bandpasses.Unsupported? || (bandpasses.Path? && !Exists(fs, bandpasses.path))
  {
    ResolveCases(bandpasses, fs);
    if !Resolve(bandpasses, fs).NotAList? {
      ResolvedNeverAborts(spectra, bandpasses, models, jmag, save, ph, fs);
    }
  }

  /** Past the list/tuple guard, the routine raises, returns or writes. */
  lemma ResolvedNeverAborts<S, B>(spectra: Option<seq<Params>>, bandpasses: BandpassSource,
                                  models: string, jmag: real, save: Option<string>,
                                  ph: Photometry<S, B>, fs: FileSystem)
    requires !Resolve(bandpasses, fs).NotAList?
    ensures !MagTableSpec(spectra, bandpasses, models, jmag, save, ph, fs).Aborted?
  {
    var resolved := Resolve(bandpasses, fs);
    if resolved.Pairs? && Construct(ph, resolved.pairs).Some? {
      var bps := Construct(ph, resolved.pairs).value;
      MagTableAfterConstruct(spectra, bandpasses, models, jmag, save, ph, fs, resolved.pairs, bps);
    }
  }

  /** Once the bandpasses are built, the routine's outcome is the loop's
      exception or the stacking-and-saving step applied to its rows. */
  lemma MagTableAfterConstruct<S, B>(spectra: Option<seq<Params>>, bandpasses: BandpassSource,
                                     models: string, jmag: real, save: Option<string>,
                                     ph: Photometry<S, B>, fs: FileSystem,
                                     pairs: seq<(string, string)>, bps: seq<B>)
    requires Resolve(bandpasses, fs) == Pairs(pairs) && Construct(ph, pairs) == Some(bps)
    ensures var acc := Accumulate(ph, models, jmag, bps, GridOf(spectra));
      MagTableSpec(spectra, bandpasses, models, jmag, save, ph, fs) ==
        if acc.Err? then Raised(acc.error) else Finish(acc.value, save, fs)
  {
  }

  /** Once the bandpasses are built, the routine yields a table (returned or
      written) exactly when no grid point raises, at least one survives, and a
      save path is given. */
  lemma MagTableYields<S, B>(spectra: Option<seq<Params>>, bandpasses: BandpassSource,
                             models: string, jmag: real, save: Option<string>,
                             ph: Photometry<S, B>, fs: FileSystem,
                             pairs: seq<(string, string)>, bps: seq<B>)
    requires Resolve(bandpasses, fs) == Pairs(pairs) && Construct(ph, pairs) == Some(bps)
    ensures var out := MagTableSpec(spectra, bandpasses, models, jmag, save, ph, fs);
      var grid := GridOf(spectra);
      (out.Returned? || out.Written?) <==>
        (forall i :: 0 <= i < |grid| ==> RaisesNothing(ph, models, jmag, bps, grid[i]))
        && |Survivors(ph, models, jmag, grid)| > 0 && save.Some?
  {
    MagTableAfterConstruct(spectra, bandpasses, models, jmag, save, ph, fs, pairs, bps);
    AccumulateRows(ph, models, jmag, bps, GridOf(spectra));
  }

  /** A yielded table's rows are the surviving points in grid order, so
      there are no more rows than points. Exactly one of writing and
      returning happens: writing when `os.path.exists(os.path.dirname(save))`
      holds and the path contains '.', to the path coerced to `.csv`. */
  lemma MagTableTable<S, B>(spectra: Option<seq<Params>>, bandpasses: BandpassSource,
                            models: string, jmag: real, save: Option<string>,
                            ph: Photometry<S, B>, fs: FileSystem,
                            pairs: seq<(string, string)>, bps: seq<B>)
    requires Resolve(bandpasses, fs) == Pairs(pairs) && Construct(ph, pairs) == Some(bps)
    ensures var out := MagTableSpec(spectra, bandpasses, models, jmag, save, ph, fs);
      var kept := Survivors(ph, models, jmag, GridOf(spectra));
      (out.Returned? || out.Written?) ==>
        && save.Some?
        && |out.table| == |kept| <= |GridOf(spectra)|
        && (forall k :: 0 <= k < |kept| ==>
              FillRow(ph, Normalised(ph, models, jmag, kept[k]), bps, kept[k]) == Some(out.table[k]))
        && (out.Written? <==> Exists(fs, Dirname(save.value)) && HasDot(save.value))
        && (out.Written? ==> out.path == CoerceCsv(save.value) && EndsWith(out.path, ".csv"))
  {
    MagTableAfterConstruct(spectra, bandpasses, models, jmag, save, ph, fs, pairs, bps);
    AccumulateRows(ph, models, jmag, bps, GridOf(spectra));
  }

  /** The outcomes decided before the loop: the stop message, the
      comprehension's `IndexError`, and a rejected pair. */
  lemma MagTableBeforeLoop<S, B>(spectra: Option<seq<Params>>, bandpasses: BandpassSource,
                                 models: string, jmag: real, save: Option<string>,
                                 ph: Photometry<S, B>, fs: FileSystem)
    ensures var out := MagTableSpec(spectra, bandpasses, models, jmag, save, ph, fs);
      var res := Resolve(bandpasses, fs);
      && (res.NotAList? ==> out == Aborted)
      && (res.BadFileName? ==> out == Raised(MalformedFileName))
      && (res.Pairs? && Construct(ph, res.pairs).None? ==> out == Raised(BandpassRaised))
  {
  }

  /** Once the bandpasses are built, the routine raises neither the
      comprehension's `IndexError` nor a `Bandpass` failure. */
  lemma MagTableLaterRaises<S, B>(spectra: Option<seq<Params>>, bandpasses: BandpassSource,
                                  models: string, jmag: real, save: Option<string>,
                                  ph: Photometry<S, B>, fs: FileSystem,
                                  pairs: seq<(string, string)>, bps: seq<B>)
    requires Resolve(bandpasses, fs) == Pairs(pairs) && Construct(ph, pairs) == Some(bps)
    ensures var out := MagTableSpec(spectra, bandpasses, models, jmag, save, ph, fs);
      out != Raised(MalformedFileName) && out != Raised(BandpassRaised)
  {
    MagTableAfterConstruct(spectra, bandpasses, models, jmag, save, ph, fs, pairs, bps);
    AccumulateRaisesInLoop(ph, models, jmag, bps, GridOf(spectra));
  }

  /** For an existing directory, the routine raises the comprehension's
      `IndexError` exactly when some file name has fewer than four
      '.'-segments. */
  lemma MagTableBadFileName<S, B>(spectra: Option<seq<Params>>, bandpasses: BandpassSource,
                                  models: string, jmag: real, save: Option<string>,
                                  ph: Photometry<S, B>, fs: FileSystem)
    requires bandpasses.Path? && Exists(fs, bandpasses.path)
    ensures var files := fs.listing(bandpasses.path);
      (exists i :: 0 <= i < |files| && |Split(files[i], '.')| < 4) <==>
        MagTableSpec(spectra, bandpasses, models, jmag, save, ph, fs) == Raised(MalformedFileName)
  {
    ResolveCases(bandpasses, fs);
    MagTableBeforeLoop(spectra, bandpasses, models, jmag, save, ph, fs);
    var res := Resolve(bandpasses, fs);
    if res.Pairs? && Construct(ph, res.pairs).Some? {
      MagTableLaterRaises(spectra, bandpasses, models, jmag, save, ph, fs, res.pairs, Construct(ph, res.pairs).value);
    }
  }

  /** Once the argument resolves to pairs, the routine raises from
      `Bandpass(filt, inst)` exactly when some pair is rejected. */
  lemma MagTableBandpassRaises<S, B>(spectra: Option<seq<Params>>, bandpasses: BandpassSource,
                                      models: string, jmag: real, save: Option<string>,
                                      ph: Photometry<S, B>, fs: FileSystem)
    requires Resolve(bandpasses, fs).Pairs?
    ensures var pairs := Resolve(bandpasses, fs).pairs;
      (exists i :: 0 <= i < |pairs| && ph.make(pairs[i].0, pairs[i].1).None?) <==>
        MagTableSpec(spectra, bandpasses, models, jmag, save, ph, fs) == Raised(BandpassRaised)
  {
    MagTableBeforeLoop(spectra, bandpasses, models, jmag, save, ph, fs);
    var res := Resolve(bandpasses, fs);
    if Construct(ph, res.pairs).Some? {
      MagTableLaterRaises(spectra, bandpasses, models, jmag, save, ph, fs, res.pairs, Construct(ph, res.pairs).value);
    }
  }

  /** As written, `Bandpass(filt, inst)` passes two arguments to a one-name
      `__init__` and always raises: then any non-empty list of pairs makes the
      routine raise at the construction step, whatever the grid. */
  lemma AsWrittenPairsRaise<S, B>(spectra: Option<seq<Params>>, bandpasses: BandpassSource,
                                  models: string, jmag: real, save: Option<string>,
                                  ph: Photometry<S, B>, fs: FileSystem)
    requires forall filt, inst :: ph.make(filt, inst).None?
    requires Resolve(bandpasses, fs).Pairs? && Resolve(bandpasses, fs).pairs != []
    ensures MagTableSpec(spectra, bandpasses, models, jmag, save, ph, fs) == Raised(BandpassRaised)
  {
    var pairs := Resolve(bandpasses, fs).pairs;
    MagTableBandpassRaises(spectra, bandpasses, models, jmag, save, ph, fs);
    assert ph.make(pairs[0].0, pairs[0].1).None?;
  }

  /** The loop raises only `NoSpectrum` or `NoMagnitude`. */
  lemma {:induction false} AccumulateRaisesInLoop<S, B>(ph: Photometry<S, B>, models: string, jmag: real, bps: seq<B>, grid: seq<Params>)
    ensures var acc := Accumulate(ph, models, jmag, bps, grid);
      acc.Err? ==> acc.error.NoSpectrum? || acc.error.NoMagnitude?
    decreases |grid|
  {
    if grid != [] {
      AccumulateRaisesInLoop(ph, models, jmag, bps, grid[..|grid| - 1]);
    }
  }

  /** Over all arguments: the routine yields a table (returned or written)
      exactly when the bandpass argument resolves to pairs, every pair makes
      a `Bandpass`, no grid point raises, at least one survives, and a save
      path is given. */
  lemma MagTableYieldsExactly<S, B>(spectra: Option<seq<Params>>, bandpasses: BandpassSource,
                                    models: string, jmag: real, save: Option<string>,
                                    ph: Photometry<S, B>, fs: FileSystem)
    ensures var out := MagTableSpec(spectra, bandpasses, models, jmag, save, ph, fs);
      var res := Resolve(bandpasses, fs);
      var grid := GridOf(spectra);
      (out.Returned? || out.Written?) <==>
        && res.Pairs? && Construct(ph, res.pairs).Some?
        && (forall i :: 0 <= i < |grid| ==> RaisesNothing(ph, models, jmag, Construct(ph, res.pairs).value, grid[i]))
        && |Survivors(ph, models, jmag, grid)| > 0 && save.Some?
  {
    var res := Resolve(bandpasses, fs);
    if res.Pairs? && Construct(ph, res.pairs).Some? {
      MagTableYields(spectra, bandpasses, models, jmag, save, ph, fs, res.pairs, Construct(ph, res.pairs).value);
    } else {
      MagTableBeforeLoop(spectra, bandpasses, models, jmag, save, ph, fs);
    }
  }

  lemma {:induction false} NoneSurvive<S, B>(ph: Photometry<S, B>, models: string, jmag: real, grid: seq<Params>)
    requires forall i :: 0 <= i < |grid| ==> !Survives(ph, models, jmag, grid[i])
    ensures Survivors(ph, models, jmag, grid) == []
  {
    if grid != [] {
      NoneSurvive(ph, models, jmag, grid[1..]);
    }
  }

  /** When every point is fetched but none renormalises, the stacking step
      has nothing to stack and raises. */
  lemma AllSkippedRaises<S, B>(spectra: Option<seq<Params>>, bandpasses: BandpassSource,
                                   models: string, jmag: real, save: Option<string>,
                                   ph: Photometry<S, B>, fs: FileSystem,
                                   pairs: seq<(string, string)>, bps: seq<B>)
    requires Resolve(bandpasses, fs) == Pairs(pairs) && Construct(ph, pairs) == Some(bps)
    requires forall i :: 0 <= i < |GridOf(spectra)| ==>
      ph.icat(models, GridOf(spectra)[i]).Some? && !Survives(ph, models, jmag, GridOf(spectra)[i])
    ensures MagTableSpec(spectra, bandpasses, models, jmag, save, ph, fs) == Raised(NothingToStack)
  {
    var grid := GridOf(spectra);
    AccumulateRows(ph, models, jmag, bps, grid);
    NoneSurvive(ph, models, jmag, grid);
  }

  /** The inner loop of `mag_table`: the per-spectrum table, column by column. */
  method BuildRow<S, B>(ph: Photometry<S, B>, spectrum: S, bps: seq<B>, p: Params)
    returns (row: Option<Row>)
    ensures row == FillRow(ph, spectrum, bps, p)
  {
    var table := BaseRow(p);
    var j := 0;
    while j < |bps|
      invariant 0 <= j <= |bps|
      invariant FillRow(ph, spectrum, bps[..j], p) == Some(table)
    {
      assert bps[..j + 1][..j] == bps[..j] && Last(bps[..j + 1]) == bps[j];
      var mag := ph.synth(spectrum, bps[j]);
      if mag.None? {
        FillRowFailureSticks(ph, spectrum, bps, p, j + 1);
        return None;
      }
      table := SetColumn(table, ph.name(bps[j]), Mag(mag.value));
      j := j + 1;
    }
    assert bps[..j] == bps;
    return Some(table);
  }

  /** The outer loop of `mag_table`: the list `tables`, grown in grid order,
      a point skipped when its renormalisation raises. */
  method BuildRows<S, B>(ph: Photometry<S, B>, models: string, jmag: real, bps: seq<B>, grid: seq<Params>)
    returns (rows: Result<seq<Row>, Failure>)
    ensures rows == Accumulate(ph, models, jmag, bps, grid)
  {
    var tables: seq<Row> := [];
    var i := 0;
    while i < |grid|
      invariant 0 <= i <= |grid|
      invariant Accumulate(ph, models, jmag, bps, grid[..i]) == Ok(tables)
    {
      var p := grid[i];
      assert grid[..i + 1][..i] == grid[..i] && Last(grid[..i + 1]) == p;
      var spectrum := ph.icat(models, p);
      if spectrum.None? {
        AccumulateFailureSticks(ph, models, jmag, bps, grid, i + 1);
        return Err(NoSpectrum(p));
      }
      var normalised := ph.renorm(spectrum.value, jmag);
      if normalised.None? {
        i := i + 1;
        continue;
      }
      var table := BuildRow(ph, normalised.value, bps, p);
      if table.None? {
        AccumulateFailureSticks(ph, models, jmag, bps, grid, i + 1);
        return Err(NoMagnitude(p));
      }
      tables := tables + [table.value];
      i := i + 1;
    }
    assert grid[..i] == grid;
    return Ok(tables);
  }

  /** `mag_table(spectra, bandpasses, models, jmag, save)`. */
  method MagTable<S, B(==)>(spectra: Option<seq<Params>>, bandpasses: BandpassSource,
                            models: string, jmag: real, save: Option<string>,
                            ph: Photometry<S, B>, fs: FileSystem)
    returns (outcome: Outcome)
    ensures outcome == MagTableSpec(spectra, bandpasses, models, jmag, save, ph, fs)
  {
    var grid := GridOf(spectra);

    var resolved := Resolve(bandpasses, fs);
    if resolved.NotAList? {
      return Aborted;
    }
    if resolved.BadFileName? {
      return Raised(MalformedFileName);
    }
    var constructed := Construct(ph, resolved.pairs);
    if constructed.None? {
      return Raised(BandpassRaised);
    }

    var rows := BuildRows(ph, models, jmag, constructed.value, grid);
    if rows.Err? {
      return Raised(rows.error);
    }
    outcome := Finish(rows.value, save, fs);
  }
}

=== FILE: rows.dfy ===
/** One per-spectrum table of `mag_table`: a single row whose columns are
    `teff`, `feh`, `logg` and then one magnitude column per bandpass name.
    Assigning `table[name] = [value]` replaces an existing column of that name
    in place and otherwise appends a new one. */
module Rows {
  import opened Options
  import opened Grid

  datatype Cell = Param(param: int) | Mag(mag: real)

  datatype Column = Column(name: string, cell: Cell)

  type Row = seq<Column>

  /** The column names, left to right. */
  function Names(row: Row): seq<string> {
    seq(|row|, k requires 0 <= k < |row| => row[k].name)
  }

  predicate Distinct(names: seq<string>) {
    forall i, j :: 0 <= i < j < |names| ==> names[i] != names[j]
  }

  /** `table[name]`: the cell of the first column called `name`, if any. */
  function Lookup(row: Row, name: string): (r: Option<Cell>)
    ensures r.Some? <==> name in Names(row)
  {
    if row == [] then None
    else if row[0].name == name then
      assert Names(row)[0] == name;
      Some(row[0].cell)
    else
      assert Names(row) == [row[0].name] + Names(row[1..]);
      Lookup(row[1..], name)
  }

  /** A found cell is the cell of a column of the row called `name`, and of
      the first such column. */
  lemma {:induction false} LookupFindsFirst(row: Row, name: string)
    ensures Lookup(row, name).Some? ==>
      exists k :: 0 <= k < |row| && row[k] == Column(name, Lookup(row, name).value)
        && forall m :: 0 <= m < k ==> row[m].name != name
  {
    if row != [] && row[0].name != name {
      LookupFindsFirst(row[1..], name);
      if Lookup(row, name).Some? {
        var k :| 0 <= k < |row[1..]| && row[1..][k] == Column(name, Lookup(row, name).value)
          && forall m :: 0 <= m < k ==> row[1..][m].name != name;
        assert row[k + 1] == Column(name, Lookup(row, name).value);
        assert forall m :: 0 <= m < k + 1 ==> row[m].name != name by {
          forall m | 0 <= m < k + 1 ensures row[m].name != name {
            if m > 0 {
              assert row[m] == row[1..][m - 1];
            }
          }
        }
      }
    } else if row != [] {
      assert row[0] == Column(name, Lookup(row, name).value);
    }
  }

  /** `table[name] = [cell]`. */
  function SetColumn(row: Row, name: string, cell: Cell): Row {
    if row == [] then [Column(name, cell)]
    else if row[0].name == name then [Column(name, cell)] + row[1..]
    else [row[0]] + SetColumn(row[1..], name, cell)
  }

  /** After `table[name] = [cell]` the column `name` holds `cell`, every
      other column reads as before, and the name list is unchanged when
      `name` was present and otherwise gains `name` at the end. */
  lemma SetColumnSpec(row: Row, name: string, cell: Cell)
    ensures Lookup(SetColumn(row, name, cell), name) == Some(cell)
    ensures forall other :: other != name ==> Lookup(SetColumn(row, name, cell), other) == Lookup(row, other)
    ensures Names(SetColumn(row, name, cell)) == if name in Names(row) then Names(row) else Names(row) + [name]
  {
    SetColumnHolds(row, name, cell);
    forall other | other != name
      ensures Lookup(SetColumn(row, name, cell), other) == Lookup(row, other)
    {
      SetColumnOthers(row, name, cell, other);
    }
    SetColumnNames(row, name, cell);
  }

  lemma {:induction false} SetColumnHolds(row: Row, name: string, cell: Cell)
    ensures Lookup(SetColumn(row, name, cell), name) == Some(cell)
  {
    if row != [] && row[0].name != name {
      SetColumnHolds(row[1..], name, cell);
      assert SetColumn(row, name, cell)[1..] == SetColumn(row[1..], name, cell);
    }
  }

  lemma {:induction false} SetColumnOthers(row: Row, name: string, cell: Cell, other: string)
    requires other != name
    ensures Lookup(SetColumn(row, name, cell), other) == Lookup(row, other)
  {
    var r := SetColumn(row, name, cell);
    if row == [] {
    } else if row[0].name == name {
      assert r[1..] == row[1..];
    } else {
      SetColumnOthers(row[1..], name, cell, other);
      assert r[1..] == SetColumn(row[1..], name, cell);
    }
  }

  lemma {:induction false} SetColumnNames(row: Row, name: string, cell: Cell)
    ensures Names(SetColumn(row, name, cell)) == if name in Names(row) then Names(row) else Names(row) + [name]
  {
    var r := SetColumn(row, name, cell);
    if row == [] {
      assert Names(r) == [name];
    } else if row[0].name == name {
      assert Names(row)[0] == name;
      assert Names(r) == Names(row);
    } else {
      var rest := SetColumn(row[1..], name, cell);
      SetColumnNames(row[1..], name, cell);
      assert r[1..] == rest;
      assert Names(row) == [row[0].name] + Names(row[1..]);
      assert Names(r) == [row[0].name] + Names(rest);
    }
  }

  /** `at.Table([[teff], [feh], [logg]], names=('teff', 'feh', 'logg'))`. */
  function BaseRow(p: Params): Row {
    [Column("teff", Param(p.teff)), Column("feh", Param(p.feh)), Column("logg", Param(p.logg))]
  }

  /** The three-column table holds the grid point under its three names. */
  lemma BaseRowHoldsPoint(p: Params)
    ensures Names(BaseRow(p)) == ["teff", "feh", "logg"]
    ensures Lookup(BaseRow(p), "teff") == Some(Param(p.teff))
    ensures Lookup(BaseRow(p), "feh") == Some(Param(p.feh))
    ensures Lookup(BaseRow(p), "logg") == Some(Param(p.logg))
  {
    var row := BaseRow(p);
    var tail := [Column("logg", Param(p.logg))];
    assert row[1..] == [Column("feh", Param(p.feh))] + tail;
    assert row[1..][1..] == tail;
    assert Lookup(tail, "logg") == Some(Param(p.logg));
    assert Lookup(row[1..], "logg") == Lookup(tail, "logg");
  }

  /** Replacing or appending a column keeps column names distinct. */
  lemma SetColumnKeepsDistinct(row: Row, name: string, cell: Cell)
    requires Distinct(Names(row))
    ensures Distinct(Names(SetColumn(row, name, cell)))
  {
    SetColumnSpec(row, name, cell);
  }
}

=== FILE: save_path.dfy ===
/** The save-path rule at the end of `mag_table`: a path not already ending
    in `.csv` is cut at its FIRST '.' and given the `.csv` extension. The cut
    is on the whole path, directory part included. */
module SavePath {
  import opened Text

  /** `save if save.endswith('.csv') else save.split('.')[0] + '.csv'`. */
  function CoerceCsv(save: string): (path: string)
    ensures EndsWith(path, ".csv")
    ensures EndsWith(save, ".csv") ==> path == save
    ensures !EndsWith(save, ".csv") ==>
      var stem := path[..|path| - 4];
      stem <= save && '.' !in stem && (|stem| == |save| || save[|stem|] == '.')
  {
    if EndsWith(save, ".csv") then save
    else
      var stem := Split(save, '.')[0];
      SplitPiecesFree(save, '.');
      SplitFirstPiece(save, '.');
      assert (stem + ".csv")[..|stem|] == stem;
      stem + ".csv"
  }

  /** `p[:p.rfind('/') + 1]`: the path up to and including its last '/',
      or "" when it has none. */
  function Head(p: string): (head: string)
    ensures head <= p
    ensures head == [] <==> '/' !in p
    ensures head != [] ==> Last(head) == '/' && '/' !in p[|head|..]
  {
    if p == [] then []
    else if Last(p) == '/' then p
    else
      assert p == p[..|p| - 1] + [Last(p)];
      Head(p[..|p| - 1])
  }

  /** `s.rstrip('/')`. */
  function StripSlashes(s: string): (r: string)
    ensures r <= s
    ensures r == [] || Last(r) != '/'
    ensures forall k :: |r| <= k < |s| ==> s[k] == '/'
  {
    if s != [] && Last(s) == '/' then StripSlashes(s[..|s| - 1]) else s
  }

  /** `os.path.dirname` on a POSIX path: the head, with its trailing slashes
      removed unless it consists of slashes only. A path without '/' has the
      empty directory name. */
  function Dirname(p: string): (d: string)
    ensures d <= p
    ensures d == [] <==> '/' !in p
  {
    var head := Head(p);
    var stripped := StripSlashes(head);
    if stripped == [] then head else stripped
  }

  /** Appending a '/'-free tail leaves the head unchanged. */
  lemma {:induction false} HeadSkips(p: string, tail: string)
    requires '/' !in tail
    ensures Head(p + tail) == Head(p)
    decreases |tail|
  {
    if tail != [] {
      var init := tail[..|tail| - 1];
      assert (p + tail)[..|p + tail| - 1] == p + init;
      assert Last(p + tail) == tail[|tail| - 1] && tail[|tail| - 1] in tail;
      HeadSkips(p, init);
    } else {
      assert p + tail == p;
    }
  }

  /** The directory name of `dir + "/" + file` is `dir`, for a file name
      without '/' and a directory not ending in '/'. */
  lemma DirnameJoin(dir: string, file: string)
    requires dir != [] && Last(dir) != '/'
    requires '/' !in file
    ensures Dirname(dir + "/" + file) == dir
  {
    HeadSkips(dir + "/", file);
    assert (dir + "/")[..|dir|] == dir;
  }

  /** The `'.' in save` half of the write condition. */
  predicate HasDot(save: string) {
    '.' in save
  }

  /** Coercing twice is coercing once. */
  lemma CoerceCsvIdempotent(save: string)
    ensures CoerceCsv(CoerceCsv(save)) == CoerceCsv(save)
  {
  }

  /** With the first '.' of the path at index `i`, a path not ending in
      `.csv` becomes its first `i` characters followed by `.csv`. */
  lemma CoerceCsvAtFirstDot(save: string, i: nat)
    requires i < |save| && save[i] == '.'
    requires forall k :: 0 <= k < i ==> save[k] != '.'
    requires !EndsWith(save, ".csv")
    ensures CoerceCsv(save) == save[..i] + ".csv"
  {
  }

  /** Because the cut is at the first '.' of the whole path, a relative
      path starting with "./" loses everything: "./mags.txt" becomes ".csv". */
  lemma CoerceCsvLeadingDot()
    ensures CoerceCsv("./mags.txt") == ".csv"
  {
    CoerceCsvAtFirstDot("./mags.txt", 0);
  }
}

=== FILE: sources.dfy ===
/** Resolution of the `bandpasses` argument of `mag_table`: an explicit list
    or tuple of (filter, instrument) pairs, or a directory whose file names
    are parsed into such pairs; anything else stops the routine. */
module Sources {
  import opened Options
  import opened Text

  /** The dynamic type of the `bandpasses` argument, as far as the routine
      distinguishes it. `Listed` is a list or a tuple of pairs. */
  datatype BandpassSource =
    | Listed(pairs: seq<(string, string)>)
    | Path(path: string)
    | Unsupported

  /** The file system as `mag_table` sees it: which non-empty paths exist,
      and the paths that `glob.glob(os.path.join(dir, '*'))` lists, in
      listing order. */
  datatype FileSystem = FileSystem(
    pathExists: string -> bool,
    listing: string -> seq<string>)

  /** `os.path.exists`: the empty path never exists. */
  predicate Exists(fs: FileSystem, path: string) {
    path != [] && fs.pathExists(path)
  }

  datatype Resolution =
    | Pairs(pairs: seq<(string, string)>)  // the routine goes on with these
    | NotAList                             // message printed, routine returns None
    | BadFileName                          // an IndexError escapes the comprehension

  /** The filter token is the third-from-last '.'-segment of the path, the
      instrument the last '_'-piece of the fourth-from-last one; a path with
      fewer than four segments makes the negative index raise. */
  function ParseFileName(path: string): (r: Option<(string, string)>)
    ensures r.Some? <==> |Split(path, '.')| >= 4
    ensures r.Some? ==> '.' !in r.value.0 && '.' !in r.value.1 && '_' !in r.value.1
  {
    var dots := Split(path, '.');
    if |dots| < 4 then None
    else
      var unders := Split(dots[|dots| - 4], '_');
      SplitPiecesFree(path, '.');
      SplitPiecesFree(dots[|dots| - 4], '_');
      SplitKeepsOut(dots[|dots| - 4], '_', '.');
      Some((dots[|dots| - 3], Last(unders)))
  }

  /** The list comprehension over the directory listing: one pair per file,
      in listing order, or an error as soon as one file name is too short. */
  function ParseListing(files: seq<string>): (r: Option<seq<(string, string)>>)
    ensures r.Some? <==> forall i :: 0 <= i < |files| ==> |Split(files[i], '.')| >= 4
    ensures r.Some? ==> |r.value| == |files|
    ensures r.Some? ==> forall i :: 0 <= i < |files| ==> ParseFileName(files[i]) == Some(r.value[i])
  {
    MapAll(files, ParseFileName)
  }

  /** The two `isinstance` tests: a string naming an existing path is replaced
      by the parsed listing, then only a list or tuple lets the routine go on. */
  function Resolve(source: BandpassSource, fs: FileSystem): Resolution {
    match source
    case Listed(pairs) => Pairs(pairs)
    case Path(path) =>
      if !Exists(fs, path) then NotAList
      else (
        match ParseListing(fs.listing(path))
        case None => BadFileName
        case Some(pairs) => Pairs(pairs))
    case Unsupported => NotAList
  }

  /** The routine goes on exactly when it is given a list or tuple, or a path
      that exists whose every file name parses; it stops with a message
      exactly when the argument is neither a list/tuple nor an existing path. */
  lemma ResolveCases(source: BandpassSource, fs: FileSystem)
    ensures Resolve(source, fs).NotAList? <==>
      source.Unsupported? || (source.Path? && !Exists(fs, source.path))
    ensures source.Listed? ==> Resolve(source, fs) == Pairs(source.pairs)
    ensures source.Path? && Exists(fs, source.path) ==>
      match ParseListing(fs.listing(source.path))
      case None => Resolve(source, fs).BadFileName?
      case Some(pairs) => Resolve(source, fs) == Pairs(pairs)
  {
  }

  /** A file named by the convention `<facility>_<instrument>.<filter>.<x>.<y>`
      (any directory part in front, any number of leading '.'-segments)
      yields its filter and instrument. */
  lemma {:induction false} ParseConventionalName(segments: seq<string>, facility: string, instrument: string)
    requires |segments| >= 4
    requires forall k :: 0 <= k < |segments| ==> '.' !in segments[k]
    requires segments[|segments| - 4] == facility + "_" + instrument
    requires '_' !in instrument
    ensures ParseFileName(Join(segments, '.')) == Some((segments[|segments| - 3], instrument))
  {
    SplitJoin(segments, '.');
    SplitConcat(facility, instrument, '_');
    SplitNoSep(instrument, '_');
    assert facility + "_" + instrument == facility + ['_'] + instrument;
  }

  /** When the fourth-from-last '.'-segment has no '_', the whole segment is
      the instrument, directory part included: `"filters/WISE.W1.x.y"` yields
      `("W1", "filters/WISE")`. */
  lemma ParseSegmentWithoutUnderscore(segments: seq<string>)
    requires |segments| >= 4
    requires forall k :: 0 <= k < |segments| ==> '.' !in segments[k]
    requires '_' !in segments[|segments| - 4]
    ensures ParseFileName(Join(segments, '.')) == Some((segments[|segments| - 3], segments[|segments| - 4]))
  {
    SplitJoin(segments, '.');
    SplitNoSep(segments[|segments| - 4], '_');
  }
}

=== FILE: text.dfy ===
/** Python's `str.split(sep)` with an explicit one-character separator, the
    string rule behind the filename parsing and the save-path coercion. */
module Text {

  /** `s.split(sep)`: the pieces between separators, empty pieces kept, so
      `"a..b"` gives `["a", "", "b"]` and `""` gives `[""]`. The first piece
      is the text before the first separator. */
  function Split(s: string, sep: char): (pieces: seq<string>)
    ensures |pieces| >= 1
  {
    if s == [] then [""]
    else
      var rest := Split(s[1..], sep);
      if s[0] == sep then [""] + rest
      else [[s[0]] + rest[0]] + rest[1..]
  }

  /** `sep.join(pieces)`, the inverse of `Split`. */
  function Join(pieces: seq<string>, sep: char): string
    requires |pieces| >= 1
  {
    if |pieces| == 1 then pieces[0] else pieces[0] + [sep] + Join(pieces[1..], sep)
  }

  /** `s.endswith(suffix)`. */
  predicate EndsWith(s: string, suffix: string) {
    |suffix| <= |s| && s[|s| - |suffix|..] == suffix
  }

  function Last<T>(s: seq<T>): T
    requires |s| >= 1
  {
    s[|s| - 1]
  }

  /** Joining the pieces of a split gives back the original string. */
  lemma {:induction false} JoinSplit(s: string, sep: char)
    ensures Join(Split(s, sep), sep) == s
  {
    if s != [] {
      JoinSplit(s[1..], sep);
      SplitCons(s, sep);
      JoinPush(s[0], sep, Split(s[1..], sep));
      assert [s[0]] + s[1..] == s;
    }
  }

  /** A string without the separator splits into itself alone. */
  lemma {:induction false} SplitNoSep(s: string, sep: char)
    requires sep !in s
    ensures Split(s, sep) == [s]
  {
    if s != [] {
      SplitNoSep(s[1..], sep);
      assert [s[0]] + s[1..] == s;
    }
  }

  /** Splitting at a separator between `a` and `b` splits `a` and `b` apart. */
  lemma {:induction false} SplitConcat(a: string, b: string, sep: char)
    ensures Split(a + [sep] + b, sep) == Split(a, sep) + Split(b, sep)
  {
    var s := a + [sep] + b;
    if a == [] {
      assert s == [sep] + b && s[1..] == b;
      SplitCons(s, sep);
    } else {
      SplitConcat(a[1..], b, sep);
      SplitConcatStep(a, b, sep);
    }
  }

  /** The inductive step of `SplitConcat`: moving the first character of `a`
      onto its first piece. */
  lemma SplitConcatStep(a: string, b: string, sep: char)
    requires a != []
    requires Split(a[1..] + [sep] + b, sep) == Split(a[1..], sep) + Split(b, sep)
    ensures Split(a + [sep] + b, sep) == Split(a, sep) + Split(b, sep)
  {
    var s := a + [sep] + b;
    assert s[1..] == a[1..] + [sep] + b && s[0] == a[0];
    SplitCons(a, sep);
    SplitCons(s, sep);
    PushAppend(a[0], sep, Split(a[1..], sep), Split(b, sep));
  }

  /** Putting character `c` in front of the pieces `rest`: a separator opens
      a new, empty first piece; any other character joins the first piece. */
  function Push(c: char, sep: char, rest: seq<string>): seq<string>
    requires |rest| >= 1
  {
    if c == sep then [""] + rest else [[c] + rest[0]] + rest[1..]
  }

  /** Pushing in front of `ra + rb` only touches `ra`. */
  lemma PushAppend(c: char, sep: char, ra: seq<string>, rb: seq<string>)
    requires |ra| >= 1
    ensures Push(c, sep, ra + rb) == Push(c, sep, ra) + rb
  {
    if c != sep {
      assert (ra + rb)[1..] == ra[1..] + rb;
    }
  }

  /** Joining after a push puts the character in front of the join. */
  lemma JoinPush(c: char, sep: char, rest: seq<string>)
    requires |rest| >= 1
    ensures Join(Push(c, sep, rest), sep) == [c] + Join(rest, sep)
  {
    if c == sep {
      assert ([""] + rest)[1..] == rest;
    } else if |rest| > 1 {
      var pushed := Push(c, sep, rest);
      assert pushed[1..] == rest[1..];
      assert [c] + rest[0] + [sep] + Join(rest[1..], sep) == [c] + (rest[0] + [sep] + Join(rest[1..], sep));
    }
  }

  /** One step of `Split`: the first character is pushed onto the pieces of
      the rest. */
  lemma SplitCons(s: string, sep: char)
    requires s != []
    ensures Split(s, sep) == Push(s[0], sep, Split(s[1..], sep))
  {
  }

  /** No piece contains the separator. */
  lemma {:induction false} SplitPiecesFree(s: string, sep: char)
    ensures forall k :: 0 <= k < |Split(s, sep)| ==> sep !in Split(s, sep)[k]
  {
    if s != [] {
      SplitPiecesFree(s[1..], sep);
      SplitCons(s, sep);
    }
  }

  /** The first piece is the text of `s` up to its first separator, or all
      of `s` when there is none: a separator-free prefix followed by a
      separator or by the end of `s`. */
  lemma {:induction false} SplitFirstPiece(s: string, sep: char)
    ensures Split(s, sep)[0] <= s
    ensures sep !in Split(s, sep)[0]
    ensures |Split(s, sep)[0]| == |s| || s[|Split(s, sep)[0]|] == sep
  {
    SplitPiecesFree(s, sep);
    if s != [] {
      SplitFirstPiece(s[1..], sep);
      SplitCons(s, sep);
    }
  }

  /** A character absent from `s` is absent from every piece of it. */
  lemma {:induction false} SplitKeepsOut(s: string, sep: char, ch: char)
    requires ch !in s
    ensures forall k :: 0 <= k < |Split(s, sep)| ==> ch !in Split(s, sep)[k]
  {
    if s != [] {
      SplitKeepsOut(s[1..], sep, ch);
      SplitCons(s, sep);
    }
  }

  /** Splitting a join of separator-free pieces gives the pieces back. */
  lemma {:induction false} SplitJoin(pieces: seq<string>, sep: char)
    requires |pieces| >= 1
    requires forall k :: 0 <= k < |pieces| ==> sep !in pieces[k]
    ensures Split(Join(pieces, sep), sep) == pieces
  {
    if |pieces| == 1 {
      SplitNoSep(pieces[0], sep);
    } else {
      SplitJoin(pieces[1..], sep);
      SplitNoSep(pieces[0], sep);
      SplitConcat(pieces[0], Join(pieces[1..], sep), sep);
      assert [pieces[0]] + pieces[1..] == pieces;
    }
  }
}

=== FILE: units.dfy ===
/** The unit-aware part of `Bandpass`: the wavelength unit, the wavelength
    array and the effective (pivot) wavelength, and the `wave_units` setter
    that changes all three together. Units are astropy units reduced to what
    the setter needs: whether they are units at all, whether they measure
    length, and their size in metres. Values are exact reals. */
module Units {
  import opened Options

  datatype Unit = Length(symbol: string, metres: real) | NonLength(symbol: string)

  /** `unit.to(q.um)` succeeds. */
  predicate IsLength(u: Unit) {
    u.Length? && u.metres > 0.0
  }

  const Angstrom: Unit := Length("Angstrom", 0.0000000001)
  const Micron: Unit := Length("um", 0.000001)

  /** What the setter is handed, as its first test sees it: `AUnit` is a
      value that is an instance of `PrefixUnit`, `Unit` or `CompositeUnit`
      (such as `q.AA`, `q.um` or `q.erg / q.s`); `NotAUnit` is anything
      else, a string or a number, and also an irreducible base unit such as
      `q.m`, which is none of the three classes. */
  datatype UnitArg = AUnit(unit: Unit) | NotAUnit

  /** The two `TypeError`s of the setter. */
  datatype UnitError = NotAUnitError | NotALengthError

  datatype Quantity = Quantity(value: real, unit: Unit)

  /** The physical length a length quantity stands for. */
  function Metres(q: Quantity): real
    requires IsLength(q.unit)
  {
    q.value * q.unit.metres
  }

  /** `quantity.to(unit)` between length units. */
  function To(q: Quantity, u: Unit): (r: Quantity)
    requires IsLength(q.unit) && IsLength(u)
    ensures r.unit == u && Metres(r) == Metres(q)
  {
    Quantity(q.value * q.unit.metres / u.metres, u)
  }

  /** Re-expressing every wavelength of an array given in `from` in `to`. */
  function ConvertWave(wave: seq<real>, from: Unit, to: Unit): (r: seq<real>)
    requires IsLength(from) && IsLength(to)
    ensures |r| == |wave|
    ensures forall i :: 0 <= i < |wave| ==> r[i] * to.metres == wave[i] * from.metres
  {
    seq(|wave|, i requires 0 <= i < |wave| => wave[i] * from.metres / to.metres)
  }

  /** The checks the setter makes, in order, before it changes anything. */
  function CheckWaveUnits(arg: UnitArg): (r: Option<UnitError>)
    ensures r.None? <==> arg.AUnit? && IsLength(arg.unit)
  {
    if arg.NotAUnit? then Some(NotAUnitError)
    else if !IsLength(arg.unit) then Some(NotALengthError)
    else None
  }

  /** Converting a quantity to another length unit and back restores it. */
  lemma ToRoundTrip(q: Quantity, u: Unit)
    requires IsLength(q.unit) && IsLength(u)
    ensures To(To(q, u), q.unit) == q
  {
    var a, b := q.unit.metres, u.metres;
    assert q.value * a / b * b == q.value * a;
  }

  /** Converting a wavelength array to another length unit and back restores it. */
  lemma ConvertWaveRoundTrip(wave: seq<real>, from: Unit, to: Unit)
    requires IsLength(from) && IsLength(to)
    ensures ConvertWave(ConvertWave(wave, from, to), to, from) == wave
  {
    var back := ConvertWave(ConvertWave(wave, from, to), to, from);
    forall i | 0 <= i < |wave| ensures back[i] == wave[i] {
      ToRoundTrip(Quantity(wave[i], from), to);
    }
  }

  /** A filter transmission curve with its current wavelength unit. */
  class Bandpass {
    const name: string
    const throughput: seq<real>
    var wave: seq<real>
    var waveUnits: Unit
    var eff: Quantity

    /** One wavelength per throughput value; the unit is a length unit and the
        effective wavelength is expressed in it. */
    ghost predicate Valid()
      reads this
    {
      |wave| == |throughput| && IsLength(waveUnits) && eff.unit == waveUnits
    }

    /** `Bandpass(name)` given what the filter registry returns for `name`
        (wavelengths in micrometres) and the pivot-wavelength computation. */
    constructor (name: string, registryWave: seq<real>, registryThroughput: seq<real>,
                 pivot: (seq<real>, seq<real>) -> real)
      requires |registryWave| == |registryThroughput|
      ensures Valid()
      ensures this.name == name && throughput == registryThroughput
      ensures waveUnits == Angstrom
      ensures wave == ConvertWave(registryWave, Micron, Angstrom)
      ensures eff == Quantity(pivot(wave, throughput), Angstrom)
    {
      var scaled := seq(|registryWave|, i requires 0 <= i < |registryWave| => registryWave[i] * 10000.0);
      this.name := name;
      throughput := registryThroughput;
      wave := scaled;
      waveUnits := Angstrom;
      eff := Quantity(pivot(scaled, registryThroughput), Angstrom);
    }

    /** `bandpass.wave_units = arg`: both checks come first, so a rejected
        argument changes nothing; an accepted one re-expresses the wavelength
        array and the effective wavelength in the new unit and records it. */
    method SetWaveUnits(arg: UnitArg) returns (error: Option<UnitError>)
      requires Valid()
      modifies this
      ensures Valid()
      ensures error == CheckWaveUnits(arg)
      ensures error.Some? ==> wave == old(wave) && waveUnits == old(waveUnits) && eff == old(eff)
      ensures error.None? ==> waveUnits == arg.unit
      ensures error.None? ==> wave == ConvertWave(old(wave), old(waveUnits), arg.unit)
      ensures error.None? ==> eff == To(old(eff), arg.unit)
    {
      if arg.NotAUnit? {
        return Some(NotAUnitError);
      }
      if !IsLength(arg.unit) {
        return Some(NotALengthError);
      }
      wave := ConvertWave(wave, waveUnits, arg.unit);
      eff := To(eff, arg.unit);
      waveUnits := arg.unit;
      return None;
    }
  }

  /** Setting the unit to `u` and then back to the original unit restores the
      wavelength array and the effective wavelength exactly. */
  method UnitsRoundTrip(bp: Bandpass, u: Unit)
    requires bp.Valid() && IsLength(u)
    modifies bp
    ensures bp.Valid()
    ensures bp.wave == old(bp.wave) && bp.eff == old(bp.eff) && bp.waveUnits == old(bp.waveUnits)
  {
    var original := bp.waveUnits;
    ghost var wave0, eff0 := bp.wave, bp.eff;
    var e1 := bp.SetWaveUnits(AUnit(u));
    var e2 := bp.SetWaveUnits(AUnit(original));
    ConvertWaveRoundTrip(wave0, original, u);
    ToRoundTrip(eff0, u);
  }
}
